=== FILE: README.md ===
# 8760-to-576 load converter, modelled in Dafny

The converter takes one year of hourly energy-load rows, each an `Hour` index
(1-based, counted from January 1 00:00) and an `MW` load. It reduces them to a
288-row table: for every calendar month and hour of day, `min` is the mean of
the loads at or below that bucket's 10th percentile and `max` is the mean of
the loads at or above its 90th percentile. Both percentiles use pandas'
midpoint interpolation.

The model follows the pipeline of `data_converter.py`, one module per stage:

- `Calendar` (`calendar.dfy`): the Gregorian leap-year rule of `is_leap_year`. It also
  spells out the `datetime`/`relativedelta` arithmetic the converter relies on:
  days per month, the first day of each month, and annual hours.
- `Validation` (`validation.dfy`): `test_data`. It resolves the year from the
  argument or the row count, runs the row-count, `MW` and `Hour` checks, and
  collects a diagnostic for each check that fails.
- `Bucketing` (`bucketing.dfy`): `create_576` and the filters of
  `iterate_months`. It maps an hour index to its timestamp, its hour of day and
  its month interval, and filters rows into buckets.
- `Sorting` and `Percentile` (`sorting.dfy`, `percentile.dfy`):
  `calculate_percentile`. It sorts the values, takes the midpoint quantile at
  levels 0.1 and 0.9, filters the two tails and takes their means.
- `Converter` (`converter.dfy`): `iterate_months`, `merge_two_dicts`, and the
  flow of `main` without its I/O.
- `Wrappers` (`wrappers.dfy`): `Option`. It stands for pandas' NaN and Python's `None`.

Loads are exact `real`s. A timestamp is represented by its whole-hour offset
from January 1 00:00 of the resolved year. Month boundaries are whole days, so
`this_month <= datetime < next_month` becomes integer arithmetic. Python's `%`
and `//` floor. For the positive divisors used here (4, 100, 400, 24) this is
the same as Dafny's Euclidean `%` and `/`, also for negative operands.

Behaviour of `data_converter.py` worth stating explicitly:

- If no year is given and the row count is neither 8760 nor 8784, the code
  logs a row-count entry (line 44) and then raises inside `is_leap_year(None)`
  (line 46). It does not return a clean failure. The model gives this its own
  outcome, `Verdict.YearUnresolved`, which carries the pending log, with the
  single diagnostic `AmbiguousRowCount`. `Converter.Outcome.Crashed` passes it on.
- A row count that does not match a given year logs `RowCountMismatch`
  (line 52). Only a given year can reach that check with a mismatch: an
  inferred year is 2004 for 8784 rows and 2005 for 8760 rows, each with
  exactly that many hours (`Validation.InferredYearPassesRowCount`).
- For loads 1..10 the midpoint 10th percentile is 1.5 and the 90th is 9.5.
  Neither rank (0.9 and 8.1) is a whole number (`Percentile.TenValuesExample`).
- In exact arithmetic, which is what the model uses, both tails of a non-empty
  bucket are non-empty and mean(low) <= p10 <= p90 <= mean(high), so
  `min <= max`, ties included (`Percentile.TailsBracketQuantiles`). The
  program computes in float64, where this can fail by rounding; see the
  IEEE-754 line under "## Left out".

## Model

| member | source | states |
|---|---|---|
| Calendar.LeapYearExamples | data_converter.py:27-29 | 2004 and 2000 are leap years; 2005, 1900 and 2100 are not |
| Calendar.LeapYearPeriod | data_converter.py:27-29 | the leap-year rule repeats every 400 years |
| Calendar.DaysInMonth | data_converter.py:67 | months have 28 to 31 days; February has 29 exactly in a leap year |
| Calendar.DaysInYearByLeap | data_converter.py:67 | the twelve month lengths add up to 366 days in a leap year and 365 otherwise |
| Calendar.AnnualHoursByLeap | data_converter.py:46-49 | the hours from January 1 to the next January 1 are 8784 in a leap year and 8760 otherwise |
| Calendar.MonthOfDay | data_converter.py:94 | every day of the year lies in the cumulative-day range of some month 1..12 |
| Calendar.MonthOfDayUnique | data_converter.py:94 | that month is unique: the month ranges are disjoint and lie within the year |
| Validation.ResolveYear | data_converter.py:37-44 | a given year is kept; otherwise 8784 rows infer a leap year and 8760 a common year, each with exactly that many hours, and any other count leaves the year unresolved |
| Validation.ExpectedRows | data_converter.py:46-49 | `annual_hours` is 8784 iff the year is leap, else 8760, and equals the calendar's hours in that year |
| Validation.TestData | data_converter.py:31-62 | an unresolved year crashes with the pending row-count entry; otherwise success holds iff the row count equals the annual hours and both `MW` and `Hour` are present, iff the log is empty; the log has one entry per failed check, in the order row count, `MW`, `Hour` |
| Validation.InferredYearPassesRowCount | data_converter.py:37-52 | without a year, 8784 rows resolve to 2004 and 8760 rows to 2005, and neither logs a row-count mismatch |
| Validation.OddRowCountCrashes | data_converter.py:43-46 | 8761 rows and no year end in the crash after logging the row count |
| Bucketing.InMonthByDay | data_converter.py:67-75 | the hour interval between two month boundaries holds exactly the hour indices whose day of the year lies in that month's day range |
| Bucketing.BucketOfHour | data_converter.py:75-79 | an hour index in 1..annual hours lies in exactly one (month, hour-of-day) bucket, and an index outside the year lies in none |
| Bucketing.OutsideYearInNoMonth | data_converter.py:67-75 | an hour index before the year or past its end passes no month filter |
| Bucketing.BucketPositions | data_converter.py:75-79 | the positions of the rows whose timestamp lies in the month and hour of day: strictly increasing, each such row listed, no other row |
| Bucketing.IncreasingUnique | data_converter.py:75-79 | an increasing position list is fixed by the set of rows it lists, so the bucket's row selection is unique |
| Bucketing.Bucket | data_converter.py:75-79 | the bucket is the selected rows' loads, one entry per row and in row order, so a load shared by several rows appears once per row |
| Bucketing.BucketMembers | data_converter.py:75-79 | a bucket holds the load of every row whose timestamp lies in the month and hour of day, and no value from any other row |
| Bucketing.BucketSizeIsMonthLength | data_converter.py:75-79 | when the `Hour` column holds each of 1..annual hours once, in any order, bucket (m, h) receives exactly as many values as month m has days |
| Bucketing.EveryRowInOneBucket | data_converter.py:92-93 | under the same condition every row falls in a bucket |
| Sorting.SortIsSorted | data_converter.py:11-12 | the order statistics that interpolation reads are ascending |
| Sorting.SortIgnoresOrder | data_converter.py:11-12 | the sorted order statistics depend only on the multiset of loads |
| Percentile.RankIsProduct | data_converter.py:11-12 | the position interpolation starts from is q·(n-1) among the n ascending loads |
| Percentile.Quantile | data_converter.py:11-12 | the midpoint quantile is missing exactly for an empty bucket, and otherwise lies between the smallest and the largest load |
| Percentile.QuantileAtOrderStatistic | data_converter.py:11-12 | when the rank q·(n-1) is a whole number i, the quantile is the i-th order statistic |
| Percentile.QuantileBetweenOrderStatistics | data_converter.py:11-12 | when the rank lies strictly between i and i+1, the quantile is the mean of order statistics i and i+1 |
| Percentile.QuantileMonotone | data_converter.py:11-12 | a higher level never gives a lower quantile, so p10 <= p90 |
| Percentile.QuantileIgnoresOrder | data_converter.py:11-12 | the quantile does not depend on the order of the rows |
| Percentile.AtMost | data_converter.py:15 | the low tail keeps each load at or below p10 with its multiplicity, and nothing when p10 is missing |
| Percentile.AtLeast | data_converter.py:16 | the high tail keeps each load at or above p90 with its multiplicity, and nothing when p90 is missing |
| Percentile.Mean | data_converter.py:19 | the mean is missing exactly when there are no values; otherwise the mean times the number of values is their sum |
| Percentile.MeanAtMost | data_converter.py:19 | the mean of non-empty values is at most any upper bound of them |
| Percentile.MeanAtLeast | data_converter.py:19 | the mean of non-empty values is at least any lower bound of them |
| Percentile.TailsBracketQuantiles | data_converter.py:11-19 | for a non-empty bucket both tails are non-empty and mean(low) <= p10 <= p90 <= mean(high) |
| Percentile.CalculatePercentile | data_converter.py:9-19 | both statistics are missing exactly for an empty bucket; otherwise min <= p10, p90 <= max and min <= max |
| Percentile.TenValuesExample | data_converter.py:11-12 | for loads 1..10 the midpoint p10 is 1.5 and p90 is 9.5 |
| Percentile.JanuaryBucketExample | data_converter.py:9-19 | for the 31 loads (six of 100, then 200 to 800, then eighteen of 900) p10 = 100 and p90 = 900, giving min 100 and max 900 |
| Converter.KeysMonthMajor | data_converter.py:70-87 | output keys strictly increase by month, then by hour of day |
| Converter.EveryKeyOnce | data_converter.py:70-87 | each of the 288 (month, hour-of-day) keys belongs to exactly one output row, row 24·(month-1)+hour |
| Converter.MergeTwoDicts | data_converter.py:21-25 | the merge has the keys of both dictionaries; a shared key takes the second dictionary's value |
| Converter.ResultsDictHasRecordColumns | data_converter.py:85 | merging the key and statistics dictionaries yields exactly the columns month, hour, min and max with their values |
| Converter.EmitByMonthAndHour | data_converter.py:70-87 | for any per-bucket statistics, the loops emit 288 records, row k carrying key k and that key's statistics |
| Converter.IterateMonths | data_converter.py:64-89 | the result has 288 rows; row k has month k/24+1 and hour k%24 and holds the tail statistics of that bucket |
| Converter.RecordFilled | data_converter.py:75-85 | when the `Hour` column holds each of 1..annual hours once, every key's record has both statistics with min <= max |
| Converter.Convert | data_converter.py:130-138 | a rejection passes on the validation log that the program prints; a crash carries the log pending at the crash, which the program never prints because `is_leap_year(None)` raises (line 46) before the print (line 59); a run that is not rejected yields 288 month-major rows (for whole, present `Hour` values; see "## Left out"), and when the `Hour` column holds each of 1..row count once, every row has both statistics with min <= max |

## Left out

- Command-line handling in `config_args` and `main`: argument parsing, the help text, `sys.exit` and the debug print. `--year` has no `type=int`, so a year given on the command line arrives as a string, and `is_leap_year` raises on it. The model takes the year as an integer option instead.
- The seeded random sample dataset used when no input file is given. It is data generation, not conversion logic.
- Reading the CSV, writing it with `QUOTE_NONNUMERIC`, and every console message, including the leap-year warning and the joined error report. Diagnostics are kept as a list of error kinds, not as formatted text.
- The row count is the number of non-null entries in the first column. The model takes it as the abstract field `Table.rowsCount`. A table without columns, where `df.columns[0]` would raise, is not modelled.
- Converter.RecordFilled, Converter.Convert: loads are never missing. In pandas a blank `MW` cell becomes NaN; when `MW` is not the first column it does not lower the row count of line 34, so it passes validation; `quantile`, the tail filters and `mean` skip it, and a bucket whose loads are all NaN gives NaN statistics. The model's loads are reals, so its statistics come from every row in the bucket.
- Converter.Convert: `Hour` values are whole numbers and never missing. A blank `Hour` cell in a column other than the first does not lower the row count of line 34, so the table can pass validation; line 92 then evaluates `timedelta(hours=nan)`, which raises, whereas the model's `Convert` returns 288 rows. A fractional `Hour` such as 1.5 is accepted by line 92 as a half-hour timestamp (00:30, bucket (1, 0)); whole-hour `int` offsets cannot express it.
- IEEE-754 arithmetic. The model computes in exact reals: the levels are exactly 1/10 and 9/10, the rank q·(n-1) is exact, and means are not rounded. In float64 the rank, and so the choice between an order statistic and a midpoint, depends on how numpy forms the position. Rounding can also break the tail bounds: for the bucket [0.1, 0.1, 0.1] the midpoint p10 is 0.1, but the float64 mean of the low tail is 0.30000000000000004/3 = 0.10000000000000002, above p10. `Percentile.TailsBracketQuantiles`, `Percentile.CalculatePercentile` and `Converter.RecordFilled` state their bounds for exact arithmetic only. NaN is `None`.
- `datetime` limits. The timestamp column is a pandas nanosecond datetime column, whose range is roughly the years 1677 to 2262; depending on the pandas version, building or reading `.dt.hour` outside that range raises or fails. Python's own `datetime` also raises for years outside 1..9998 (month boundaries reach January 1 of the next year) and for hour offsets too large for `timedelta`. Here years and offsets are unbounded integers.
- The `month` column computed in `create_576` is never read by `iterate_months`. It is modelled only for days inside the year (`Calendar.MonthOfDay`).

=== FILE: bucketing.dfy ===
/** `create_576` and the filters of `iterate_months`: the timestamp of an hour
    index, its hour of day, and the (month, hour-of-day) bucket it falls in.
    A timestamp is represented by its whole-hour offset from January 1 00:00
    of the resolved year; month boundaries are whole days, so the comparison
    `this_month <= datetime < next_month` becomes integer arithmetic. */
module Bucketing {
  import opened Wrappers
  import opened Calendar

  /** One input row: the 1-based `Hour` index and its `MW` load. */
  datatype Row = Row(hour: int, load: real)

  /** `datetime(year,1,1) + timedelta(hours=h-1)`, as hours since January 1. */
  function Offset(h: int): int {
    h - 1
  }

  /** `.dt.hour` of the timestamp. Before January 1 the clock still counts
      forward, which is the floor remainder, Dafny's `%` for a positive divisor. */
  function HourOfDay(h: int): int {
    Offset(h) % 24
  }

  /** Whole days since January 1 (negative before it). */
  function DayOfYear(h: int): int {
    Offset(h) / 24
  }

  /** `this_month <= datetime < next_month` for calendar month `month`. */
  predicate InMonth(year: int, month: int, h: int)
    requires 1 <= month <= 12
  {
    24 * MonthStart(year, month) <= Offset(h) < 24 * MonthStart(year, month + 1)
  }

  /** The row with hour index `h` belongs to bucket (month, hod). */
  predicate InBucket(year: int, month: int, hod: int, h: int)
    requires 1 <= month <= 12
  {
    InMonth(year, month, h) && HourOfDay(h) == hod
  }

  /** The timestamp is `DayOfYear` whole days plus `HourOfDay` hours, with the
      hour of day in 0..23. */
  lemma TimestampSplit(h: int)
    ensures 0 <= HourOfDay(h) < 24
    ensures Offset(h) == 24 * DayOfYear(h) + HourOfDay(h)
  {
  }

  /** The hour-interval filter of a month is the day-interval of its
      cumulative days: a row is in month m iff its day of the year is. */
  lemma InMonthByDay(year: int, month: int, h: int)
    requires 1 <= month <= 12
    ensures InMonth(year, month, h) <==>
            MonthStart(year, month) <= DayOfYear(h) < MonthStart(year, month + 1)
  {
    TimestampSplit(h);
  }

  /** The unique bucket of hour index `h`: none at all outside
      1..AnnualHours(year), where the timestamp leaves the resolved year. */
  function BucketOfHour(year: int, h: int): (key: Option<(int, int)>)
    ensures key.Some? <==> 1 <= h <= AnnualHours(year)
    ensures forall m, hod :: 1 <= m <= 12 ==>
              (InBucket(year, m, hod, h) <==> key == Some((m, hod)))
  {
    BucketOfHourCorrect(year, h);
    if 1 <= h <= AnnualHours(year) then Some((MonthOfDay(year, DayOfYear(h)), HourOfDay(h))) else None
  }

  lemma BucketOfHourCorrect(year: int, h: int)
    ensures forall m, hod :: 1 <= m <= 12 ==>
              (InBucket(year, m, hod, h) <==>
               1 <= h <= AnnualHours(year) && m == MonthOfDay(year, DayOfYear(h)) && hod == HourOfDay(h))
  {
    MonthStartIncreasing(year, 1, 13);
    forall m, hod | 1 <= m <= 12
      ensures InBucket(year, m, hod, h) <==>
              1 <= h <= AnnualHours(year) && m == MonthOfDay(year, DayOfYear(h)) && hod == HourOfDay(h)
    {
      InMonthByDay(year, m, h);
      MonthStartIncreasing(year, 1, m);
      MonthStartIncreasing(year, m + 1, 13);
      if InMonth(year, m, h) {
        MonthOfDayUnique(year, DayOfYear(h), m);
      }
    }
  }

  /** No row outside the year lands in any month of it. */
  lemma OutsideYearInNoMonth(year: int, h: int, m: int)
    requires h < 1 || h > AnnualHours(year)
    requires 1 <= m <= 12
    ensures !InMonth(year, m, h)
  {
    BucketOfHourCorrect(year, h);
    assert !InBucket(year, m, HourOfDay(h), h);
  }

  /** Strictly ascending positions. */
  predicate Increasing(idx: seq<int>) {
    forall a, b :: 0 <= a < b < |idx| ==> idx[a] < idx[b]
  }

  /** The positions of the rows in bucket (month, hod), in row order: exactly
      the positions whose row is in the bucket, each once. */
  function BucketPositions(rows: seq<Row>, year: int, month: int, hod: int): (idx: seq<int>)
    requires 1 <= month <= 12
    ensures Increasing(idx)
    ensures forall k :: 0 <= k < |idx| ==> 0 <= idx[k] < |rows| && InBucket(year, month, hod, rows[idx[k]].hour)
    ensures forall i :: 0 <= i < |rows| && InBucket(year, month, hod, rows[i].hour) ==> i in idx
  {
    if |rows| == 0 then []
    else
      var init := rows[..|rows| - 1];
      var n := |rows| - 1;
      assert forall i :: 0 <= i < |init| ==> init[i] == rows[i];
      BucketPositions(init, year, month, hod) + (if InBucket(year, month, hod, rows[n].hour) then [n] else [])
  }

  /** The last of ascending positions is the largest. */
  lemma LastIsLargest(a: seq<int>)
    requires Increasing(a) && |a| > 0
    ensures forall x :: x in a ==> x <= a[|a| - 1]
  {
    forall x | x in a
      ensures x <= a[|a| - 1]
    {
      var i :| 0 <= i < |a| && a[i] == x;
      assert i == |a| - 1 || a[i] < a[|a| - 1];
    }
  }

  /** Dropping the last of ascending positions removes exactly that member. */
  lemma InitMembers(a: seq<int>)
    requires Increasing(a) && |a| > 0
    ensures Increasing(a[..|a| - 1])
    ensures forall x :: x in a[..|a| - 1] <==> x in a && x != a[|a| - 1]
  {
    var init := a[..|a| - 1];
    assert a == init + [a[|a| - 1]];
    forall x | x in init
      ensures x != a[|a| - 1]
    {
      var i :| 0 <= i < |init| && init[i] == x;
      assert a[i] < a[|a| - 1];
    }
  }

  /** Two ascending position lists with the same members are the same list,
      so the contract of `BucketPositions` determines it. */
  lemma {:induction false} IncreasingUnique(a: seq<int>, b: seq<int>)
    requires Increasing(a) && Increasing(b)
    requires forall x :: x in a <==> x in b
    ensures a == b
    decreases |a|
  {
    if |a| > 0 {
      assert a[0] in a;
    }
    if |b| > 0 {
      assert b[0] in b;
    }
    if |a| > 0 {
      var la, lb := a[|a| - 1], b[|b| - 1];
      LastIsLargest(a);
      LastIsLargest(b);
      assert la in a && lb in b;
      assert la == lb;
      InitMembers(a);
      InitMembers(b);
      var a', b' := a[..|a| - 1], b[..|b| - 1];
      forall x
        ensures x in a' <==> x in b'
      {
        assert x in a' <==> x in a && x != la;
        assert x in b' <==> x in b && x != lb;
      }
      IncreasingUnique(a', b');
      assert a == a' + [la];
      assert b == b' + [lb];
    }
  }

  /** `mon_df[mon_df['day_hour'] == hod]` of month `month`: the loads of the
      rows in the bucket, one per row and in input order. */
  function Bucket(rows: seq<Row>, year: int, month: int, hod: int): (values: seq<real>)
    requires 1 <= month <= 12
    ensures |values| == |BucketPositions(rows, year, month, hod)| <= |rows|
    ensures forall k :: 0 <= k < |values| ==> values[k] == rows[BucketPositions(rows, year, month, hod)[k]].load
  {
    if |rows| == 0 then []
    else
      var init := rows[..|rows| - 1];
      var last := rows[|rows| - 1];
      assert forall i :: 0 <= i < |init| ==> init[i] == rows[i];
      Bucket(init, year, month, hod) + (if InBucket(year, month, hod, last.hour) then [last.load] else [])
  }

  /** Hence the bucket holds the load of every row in it, and only such loads. */
  lemma BucketMembers(rows: seq<Row>, year: int, month: int, hod: int)
    requires 1 <= month <= 12
    ensures forall i :: 0 <= i < |rows| && InBucket(year, month, hod, rows[i].hour) ==>
              rows[i].load in Bucket(rows, year, month, hod)
    ensures forall v :: v in Bucket(rows, year, month, hod) ==>
              exists i :: 0 <= i < |rows| && rows[i].load == v && InBucket(year, month, hod, rows[i].hour)
  {
    var values, idx := Bucket(rows, year, month, hod), BucketPositions(rows, year, month, hod);
    forall i | 0 <= i < |rows| && InBucket(year, month, hod, rows[i].hour)
      ensures rows[i].load in values
    {
      var k :| 0 <= k < |idx| && idx[k] == i;
      assert values[k] == rows[i].load;
    }
    forall v | v in values
      ensures exists i :: 0 <= i < |rows| && rows[i].load == v && InBucket(year, month, hod, rows[i].hour)
    {
      var k :| 0 <= k < |values| && values[k] == v;
      assert rows[idx[k]].load == v;
    }
  }

  /** The `Hour` column of the rows, in row order. */
  function HourColumn(rows: seq<Row>): (hs: seq<int>)
    ensures |hs| == |rows|
    ensures forall i :: 0 <= i < |rows| ==> hs[i] == rows[i].hour
  {
    if |rows| == 0 then [] else HourColumn(rows[..|rows| - 1]) + [rows[|rows| - 1].hour]
  }

  /** The hour indices 1, 2, ..., n. */
  function HourRange(n: nat): (hs: seq<int>)
    ensures |hs| == n
    ensures forall i :: 0 <= i < n ==> hs[i] == i + 1
  {
    if n == 0 then [] else HourRange(n - 1) + [n]
  }

  /** The `Hour` column holds each of 1..n exactly once, in any order. */
  predicate HoursAreOneTo(rows: seq<Row>, n: nat) {
    multiset(HourColumn(rows)) == multiset(HourRange(n))
  }

  /** Hour index `h` lies in days s..e-1 at hour of day `hod`: the bucket test
      with the month's day range given directly. */
  predicate InSlot(s: int, e: int, hod: int, h: int) {
    24 * s <= Offset(h) < 24 * e && HourOfDay(h) == hod
  }

  /** How many of the hour indices `hs` lie in the slot: for the month's day
      range, how many belong to bucket (month, hod). */
  function CountInSlot(hs: seq<int>, s: int, e: int, hod: int): nat {
    if |hs| == 0 then 0
    else CountInSlot(hs[..|hs| - 1], s, e, hod) + (if InSlot(s, e, hod, hs[|hs| - 1]) then 1 else 0)
  }

  lemma {:induction false} BucketSizeCountsHours(rows: seq<Row>, year: int, month: int, hod: int)
    requires 1 <= month <= 12
    ensures |Bucket(rows, year, month, hod)| ==
            CountInSlot(HourColumn(rows), MonthStart(year, month), MonthStart(year, month + 1), hod)
    decreases |rows|
  {
    if |rows| > 0 {
      var init := rows[..|rows| - 1];
      BucketSizeCountsHours(init, year, month, hod);
      assert HourColumn(rows)[..|rows| - 1] == HourColumn(init);
    }
  }

  lemma {:induction false} CountConcat(a: seq<int>, b: seq<int>, s: int, e: int, hod: int)
    ensures CountInSlot(a + b, s, e, hod) == CountInSlot(a, s, e, hod) + CountInSlot(b, s, e, hod)
    decreases |b|
  {
    if |b| == 0 {
      assert a + b == a;
    } else {
      var b' := b[..|b| - 1];
      CountConcat(a, b', s, e, hod);
      assert (a + b)[..|a + b| - 1] == a + b';
    }
  }

  /** The count depends only on the multiset of hour indices. */
  lemma {:induction false} CountIgnoresOrder(a: seq<int>, b: seq<int>, s: int, e: int, hod: int)
    requires multiset(a) == multiset(b)
    ensures CountInSlot(a, s, e, hod) == CountInSlot(b, s, e, hod)
    decreases |a|
  {
    if |a| > 0 {
      var x := a[|a| - 1];
      var a' := a[..|a| - 1];
      assert a == a' + [x];
      assert x in multiset(b);
      var k :| 0 <= k < |b| && b[k] == x;
      var b' := b[..k] + b[k + 1..];
      assert b == b[..k] + [x] + b[k + 1..];
      assert multiset(b) == multiset(b[..k]) + multiset{x} + multiset(b[k + 1..]);
      assert multiset(b') == multiset(b[..k]) + multiset(b[k + 1..]);
      assert multiset(a) == multiset(a') + multiset{x};
      assert multiset(a') == multiset(a) - multiset{x};
      assert multiset(b') == multiset(b) - multiset{x};
      CountIgnoresOrder(a', b', s, e, hod);
      CountConcat(b[..k] + [x], b[k + 1..], s, e, hod);
      CountConcat(b[..k], [x], s, e, hod);
      CountConcat(b[..k], b[k + 1..], s, e, hod);
      assert [x][..0] == [];
    }
  }

  /** How many of the hour indices 1..n lie in days s..e-1 at hour `hod`. */
  function Matching(s: int, e: int, hod: int, n: nat): nat {
    if n == 0 then 0
    else Matching(s, e, hod, n - 1) + (if InSlot(s, e, hod, n) then 1 else 0)
  }

  /** Counting the bucket over the hour indices 1..n is counting its slot. */
  lemma {:induction false} CountOfHourRange(s: int, e: int, hod: int, n: nat)
    ensures CountInSlot(HourRange(n), s, e, hod) == Matching(s, e, hod, n)
  {
    if n > 0 {
      CountOfHourRange(s, e, hod, n - 1);
      assert HourRange(n)[..n - 1] == HourRange(n - 1);
    }
  }

  /** Hour j of day d (0 <= j < 24) is the (24·d + j + 1)-th hour index. */
  lemma HourOfDayIndex(d: nat, j: int)
    requires 0 <= j < 24
    ensures HourOfDay(24 * d + j + 1) == j && DayOfYear(24 * d + j + 1) == d
  {
  }

  /** Within day `d`, the first `j` hours hold one slot member when the day is
      in s..e-1 and `hod < j`, and none otherwise. */
  lemma {:induction false} MatchingWithinDay(s: int, e: int, hod: int, d: nat, j: nat)
    requires j <= 24
    ensures Matching(s, e, hod, 24 * d + j) ==
            Matching(s, e, hod, 24 * d) + (if s <= d < e && 0 <= hod < j then 1 else 0)
    decreases j
  {
    if j > 0 {
      MatchingWithinDay(s, e, hod, d, j - 1);
      HourOfDayIndex(d, j - 1);
      TimestampSplit(24 * d + j);
    }
  }

  /** How many of the days 0..d-1 lie in the day range s..e-1. */
  function DaysBelow(d: int, s: int, e: int): int {
    if d <= s then 0 else if d <= e then d - s else e - s
  }

  /** Adding day `d` adds one exactly when it lies in the range. */
  lemma DaysBelowStep(d: int, s: int, e: int)
    requires s <= e
    ensures DaysBelow(d + 1, s, e) == DaysBelow(d, s, e) + (if s <= d < e then 1 else 0)
  {
  }

  /** Over the first `d` whole days a slot collects one hour for each of those
      days that lies in its day range. */
  lemma {:induction false} MatchingOverDays(s: int, e: int, hod: int, d: nat)
    requires 0 <= s <= e
    requires 0 <= hod < 24
    ensures Matching(s, e, hod, 24 * d) == DaysBelow(d, s, e)
    decreases d
  {
    if d > 0 {
      MatchingOverDays(s, e, hod, d - 1);
      MatchingWithinDay(s, e, hod, d - 1, 24);
      assert 24 * (d - 1) + 24 == 24 * d;
      DaysBelowStep(d - 1, s, e);
    }
  }

  /** Of the hour indices 1..AnnualHours(year), bucket (month, hod) holds one
      per day of the month. */
  lemma MatchingWholeYear(year: int, month: int, hod: int)
    requires 1 <= month <= 12 && 0 <= hod < 24
    ensures Matching(MonthStart(year, month), MonthStart(year, month + 1), hod, AnnualHours(year)) ==
            DaysInMonth(year, month)
  {
    var s, e, n := MonthStart(year, month), MonthStart(year, month + 1), DaysInYear(year);
    MonthWithinYear(year, month);
    MatchingOverDays(s, e, hod, n);
    assert DaysBelow(n, s, e) == e - s;
  }

  /** With the `Hour` column a permutation of 1..AnnualHours(year), bucket
      (m, hod) receives exactly one row per day of month m. */
  lemma BucketSizeIsMonthLength(rows: seq<Row>, year: int, month: int, hod: int)
    requires 1 <= month <= 12 && 0 <= hod < 24
    requires HoursAreOneTo(rows, AnnualHours(year))
    ensures |Bucket(rows, year, month, hod)| == DaysInMonth(year, month)
  {
    var s, e := MonthStart(year, month), MonthStart(year, month + 1);
    BucketSizeCountsHours(rows, year, month, hod);
    CountIgnoresOrder(HourColumn(rows), HourRange(AnnualHours(year)), s, e, hod);
    CountOfHourRange(s, e, hod, AnnualHours(year));
    MatchingWholeYear(year, month, hod);
  }

  /** With the `Hour` column a permutation of 1..AnnualHours(year), every row
      lands in exactly one bucket. */
  lemma EveryRowInOneBucket(rows: seq<Row>, year: int, i: int)
    requires HoursAreOneTo(rows, AnnualHours(year))
    requires 0 <= i < |rows|
    ensures BucketOfHour(year, rows[i].hour).Some?
  {
    var hs := HourRange(AnnualHours(year));
    assert HourColumn(rows)[i] in multiset(HourColumn(rows));
    assert rows[i].hour in multiset(hs);
  }
}

=== FILE: calendar.dfy ===
/** Naive Gregorian calendar arithmetic: the part of `datetime` and
    `relativedelta` the converter relies on, written out as days per month. */
module Calendar {

  /** The Gregorian rule of `is_leap_year`. Python's `%` floors, which for the
      positive divisors 4, 100 and 400 agrees with Dafny's Euclidean `%`, also
      for negative years. */
  predicate IsLeapYear(year: int) {
    year % 4 == 0 && (year % 100 != 0 || year % 400 == 0)
  }

  lemma LeapYearExamples()
    ensures IsLeapYear(2004) && IsLeapYear(2000)
    ensures !IsLeapYear(2005) && !IsLeapYear(1900) && !IsLeapYear(2100)
  {
  }

  /** The rule repeats every 400 years. */
  lemma LeapYearPeriod(year: int)
    ensures IsLeapYear(year + 400) == IsLeapYear(year)
  {
    assert (year + 400) % 4 == year % 4;
    assert (year + 400) % 100 == year % 100;
    assert (year + 400) % 400 == year % 400;
  }

  function DaysInMonth(year: int, month: int): (days: int)
    requires 1 <= month <= 12
    ensures 28 <= days <= 31
    ensures month == 2 ==> (days == 29 <==> IsLeapYear(year))
    ensures month != 2 ==> days >= 30
  {
    if month == 2 then (if IsLeapYear(year) then 29 else 28)
    else if month == 4 || month == 6 || month == 9 || month == 11 then 30
    else 31
  }

  /** Days from January 1 of `year` to the first day of `month`; month 13
      stands for January 1 of the following year, the last entry of the
      converter's month boundaries. */
  function MonthStart(year: int, month: int): (days: int)
    requires 1 <= month <= 13
    ensures 28 * (month - 1) <= days <= 31 * (month - 1)
    decreases month
  {
    if month == 1 then 0 else MonthStart(year, month - 1) + DaysInMonth(year, month - 1)
  }

  function DaysInYear(year: int): int {
    MonthStart(year, 13)
  }

  /** Hours from January 1 00:00 of `year` to January 1 00:00 of the next year. */
  function AnnualHours(year: int): int {
    24 * DaysInYear(year)
  }

  /** The month lengths add up to 366 days in a leap year and 365 otherwise. */
  lemma DaysInYearByLeap(year: int)
    ensures DaysInYear(year) == (if IsLeapYear(year) then 366 else 365)
  {
    assert MonthStart(year, 2) == 31;
    assert MonthStart(year, 3) == 31 + DaysInMonth(year, 2);
    assert MonthStart(year, 4) == 62 + DaysInMonth(year, 2);
    assert MonthStart(year, 5) == 92 + DaysInMonth(year, 2);
    assert MonthStart(year, 6) == 123 + DaysInMonth(year, 2);
    assert MonthStart(year, 7) == 153 + DaysInMonth(year, 2);
    assert MonthStart(year, 8) == 184 + DaysInMonth(year, 2);
    assert MonthStart(year, 9) == 215 + DaysInMonth(year, 2);
    assert MonthStart(year, 10) == 245 + DaysInMonth(year, 2);
    assert MonthStart(year, 11) == 276 + DaysInMonth(year, 2);
    assert MonthStart(year, 12) == 306 + DaysInMonth(year, 2);
  }

  lemma AnnualHoursByLeap(year: int)
    ensures AnnualHours(year) == (if IsLeapYear(year) then 8784 else 8760)
  {
    DaysInYearByLeap(year);
  }

  /** Later months start later: each month has at least one day. */
  lemma {:induction false} MonthStartIncreasing(year: int, a: int, b: int)
    requires 1 <= a <= b <= 13
    ensures MonthStart(year, a) + (b - a) <= MonthStart(year, b)
    decreases b - a
  {
    if a < b {
      MonthStartIncreasing(year, a, b - 1);
    }
  }

  /** Month `month` spans days MonthStart(month)..MonthStart(month+1)-1 of the
      year: its length apart, inside 0..DaysInYear. */
  lemma MonthWithinYear(year: int, month: int)
    requires 1 <= month <= 12
    ensures 0 <= MonthStart(year, month)
    ensures MonthStart(year, month + 1) == MonthStart(year, month) + DaysInMonth(year, month)
    ensures MonthStart(year, month + 1) <= DaysInYear(year)
    ensures AnnualHours(year) == 24 * DaysInYear(year)
  {
    MonthStartIncreasing(year, month + 1, 13);
  }

  /** The month whose day range `[MonthStart(m), MonthStart(m+1))` contains
      `day`, searching downwards from `month`. */
  function FindMonth(year: int, day: int, month: int): (m: int)
    requires 1 <= month <= 12
    requires 0 <= day < MonthStart(year, month + 1)
    ensures 1 <= m <= month
    ensures MonthStart(year, m) <= day < MonthStart(year, m + 1)
    decreases month
  {
    if MonthStart(year, month) <= day then month else FindMonth(year, day, month - 1)
  }

  /** The calendar month of a zero-based day of the year. */
  function MonthOfDay(year: int, day: int): (m: int)
    requires 0 <= day < DaysInYear(year)
    ensures 1 <= m <= 12
    ensures MonthStart(year, m) <= day < MonthStart(year, m + 1)
  {
    FindMonth(year, day, 12)
  }

  /** The day ranges of different months are disjoint, so the month of a day
      is unique. */
  lemma MonthOfDayUnique(year: int, day: int, m: int)
    requires 1 <= m <= 12
    requires MonthStart(year, m) <= day < MonthStart(year, m + 1)
    ensures 0 <= day < DaysInYear(year)
    ensures MonthOfDay(year, day) == m
  {
    MonthStartIncreasing(year, m + 1, 13);
    var k := MonthOfDay(year, day);
    if k < m {
      MonthStartIncreasing(year, k + 1, m);
    } else if m < k {
      MonthStartIncreasing(year, m + 1, k);
    }
  }
}

=== FILE: converter.dfy ===
/** `iterate_months`, `merge_two_dicts` and the flow of `main` without its
    I/O: validate, then emit one record per (month, hour-of-day) bucket,
    month-major and hour-minor. */
module Converter {
  import opened Wrappers
  import opened Calendar
  import opened Bucketing
  import opened Percentile
  import opened Validation

  /** One output row: the columns `month`, `hour`, `min`, `max`. */
  datatype Record = Record(month: int, hour: int, min: Option<real>, max: Option<real>)

  /** Number of output rows: 12 months times 24 hours. */
  const OutputRows := 288

  /** The (month, hour-of-day) key of the k-th output row. */
  function KeyAt(k: int): (key: (int, int))
    requires 0 <= k < OutputRows
    ensures 1 <= key.0 <= 12 && 0 <= key.1 < 24
    ensures k == 24 * (key.0 - 1) + key.1
  {
    (k / 24 + 1, k % 24)
  }

  /** Keys strictly increase: month first, hour of day within the month. */
  lemma KeysMonthMajor(i: int, j: int)
    requires 0 <= i < j < OutputRows
    ensures KeyAt(i).0 < KeyAt(j).0 || (KeyAt(i).0 == KeyAt(j).0 && KeyAt(i).1 < KeyAt(j).1)
  {
  }

  /** Every (month, hour-of-day) key is the key of exactly one output row. */
  lemma EveryKeyOnce(month: int, hod: int)
    requires 1 <= month <= 12 && 0 <= hod < 24
    ensures exists k :: 0 <= k < OutputRows && KeyAt(k) == (month, hod)
    ensures forall k :: 0 <= k < OutputRows && KeyAt(k) == (month, hod) ==> k == 24 * (month - 1) + hod
  {
    var k := 24 * (month - 1) + hod;
    assert KeyAt(k) == (month, hod);
  }

  /** `merge_two_dicts`: a copy of `x` updated with `y`; on a shared key the
      value of `y` wins. */
  function MergeTwoDicts<K, V>(x: map<K, V>, y: map<K, V>): (z: map<K, V>)
    ensures z.Keys == x.Keys + y.Keys
    ensures forall k :: k in y ==> z[k] == y[k]
    ensures forall k :: k in x && k !in y ==> z[k] == x[k]
  {
    x + y
  }

  /** A cell of a results dictionary. */
  datatype Cell = IntCell(i: int) | RealCell(r: Option<real>)

  /** The key dictionary and the statistics dictionary share no key, so their
      merge keeps all four columns of the record. */
  lemma ResultsDictHasRecordColumns(month: int, hod: int, t: TailStats)
    ensures var d := MergeTwoDicts(map["month" := IntCell(month), "hour" := IntCell(hod)],
                                   map["min" := RealCell(t.min), "max" := RealCell(t.max)]);
            && d.Keys == {"month", "hour", "min", "max"}
            && d["month"] == IntCell(month) && d["hour"] == IntCell(hod)
            && d["min"] == RealCell(t.min) && d["max"] == RealCell(t.max)
  {
  }

  /** Row 24·(month-1)+hod carries key (month, hod). */
  lemma KeyOfPosition(month: int, hod: int)
    requires 1 <= month <= 12 && 0 <= hod < 24
    ensures 0 <= 24 * (month - 1) + hod < OutputRows
    ensures KeyAt(24 * (month - 1) + hod) == (month, hod)
  {
  }

  /** Output row k for per-bucket statistics `stats`: the key merged with the
      statistics of that key. The row number is recovered from the record's
      own month and hour, and the record carries its own key's statistics. */
  function KeyedRecord(stats: (int, int) -> TailStats, k: int): (r: Record)
    requires 0 <= k < OutputRows
    ensures 1 <= r.month <= 12 && 0 <= r.hour < 24
    ensures k == 24 * (r.month - 1) + r.hour
    ensures r.min == stats(r.month, r.hour).min && r.max == stats(r.month, r.hour).max
  {
    var key := KeyAt(k);
    var t := stats(key.0, key.1);
    Record(key.0, key.1, t.min, t.max)
  }

  /** The first `n` output rows, built key by key: the reference the loops of
      `iterate_months` are checked against. */
  function KeyedRecords(stats: (int, int) -> TailStats, n: nat): (table: seq<Record>)
    requires n <= OutputRows
    ensures |table| == n
    ensures forall k :: 0 <= k < n ==> table[k] == KeyedRecord(stats, k)
  {
    if n == 0 then [] else KeyedRecords(stats, n - 1) + [KeyedRecord(stats, n - 1)]
  }

  /** The two nested loops of `iterate_months`, for any per-bucket statistics:
      months ascending, and hours of day ascending within each month. */
  method EmitByMonthAndHour(stats: (int, int) -> TailStats) returns (table: seq<Record>)
    ensures |table| == OutputRows
    ensures forall k :: 0 <= k < OutputRows ==> table[k] == KeyedRecord(stats, k)
  {
    table := [];
    var month := 1;
    while month <= 12
      invariant 1 <= month <= 13
      invariant table == KeyedRecords(stats, 24 * (month - 1))
    {
      var hod := 0;
      while hod < 24
        invariant 0 <= hod <= 24
        invariant table == KeyedRecords(stats, 24 * (month - 1) + hod)
      {
        KeyOfPosition(month, hod);
        var t := stats(month, hod);
        table := table + [Record(month, hod, t.min, t.max)];
        hod := hod + 1;
      }
      month := month + 1;
    }
  }

  /** The tail statistics of bucket (month, hod) of the rows. Only months
      1..12 have a month interval; no key asks for another. */
  function BucketStats(rows: seq<Row>, year: int, month: int, hod: int): TailStats {
    if 1 <= month <= 12 then CalculatePercentile(Bucket(rows, year, month, hod)) else TailStats(None, None)
  }

  /** The output row for key k: its month and hour with that bucket's statistics. */
  function BucketRecord(rows: seq<Row>, year: int, k: int): (r: Record)
    requires 0 <= k < OutputRows
    ensures (r.month, r.hour) == KeyAt(k)
  {
    var key := KeyAt(k);
    var t := BucketStats(rows, year, key.0, key.1);
    Record(key.0, key.1, t.min, t.max)
  }

  /** `iterate_months`: for each month and then each hour of day, the tail
      statistics of that bucket, so row k is the record of key k. */
  method IterateMonths(rows: seq<Row>, year: int) returns (table: seq<Record>)
    ensures |table| == OutputRows
    ensures forall k :: 0 <= k < OutputRows ==> table[k] == BucketRecord(rows, year, k)
  {
    table := EmitByMonthAndHour((month, hod) => BucketStats(rows, year, month, hod));
  }

  /** With the `Hour` column a permutation of 1..AnnualHours(year), the record
      of every key has both statistics, with min <= max. */
  lemma RecordFilled(rows: seq<Row>, year: int, k: int)
    requires 0 <= k < OutputRows
    requires HoursAreOneTo(rows, AnnualHours(year))
    ensures BucketRecord(rows, year, k).min.Some? && BucketRecord(rows, year, k).max.Some?
    ensures BucketRecord(rows, year, k).min.value <= BucketRecord(rows, year, k).max.value
  {
    var key := KeyAt(k);
    BucketSizeIsMonthLength(rows, year, key.0, key.1);
  }

  lemma TableFilled(rows: seq<Row>, year: int, table: seq<Record>)
    requires HoursAreOneTo(rows, AnnualHours(year))
    requires |table| == OutputRows
    requires forall k :: 0 <= k < OutputRows ==> table[k] == BucketRecord(rows, year, k)
    ensures forall k :: 0 <= k < OutputRows ==>
              table[k].min.Some? && table[k].max.Some? && table[k].min.value <= table[k].max.value
  {
    forall k | 0 <= k < OutputRows
      ensures table[k].min.Some? && table[k].max.Some? && table[k].min.value <= table[k].max.value
    {
      RecordFilled(rows, year, k);
    }
  }

  /** How a run ends: the crash on an unresolved year, a rejected table with
      its diagnostics, or the 288-row result for the resolved year. */
  datatype Outcome =
    | Crashed(log: seq<Diagnostic>)
    | Rejected(log: seq<Diagnostic>)
    | Converted(year: int, table: seq<Record>)

  /** Validates the table, then builds the result from its rows. A table whose
      `Hour` column holds each of 1..rowsCount once fills every bucket, so every
      record then has both statistics, with min <= max. */
  method Convert(t: Table, year: Option<int>) returns (o: Outcome)
    ensures o.Crashed? <==> TestData(t, year).YearUnresolved?
    ensures o.Rejected? <==> TestData(t, year).Checked? && !TestData(t, year).success
    ensures !o.Converted? ==> o.log == TestData(t, year).log && |o.log| > 0
    ensures o.Converted? ==> o.year == TestData(t, year).year && t.rowsCount == AnnualHours(o.year)
    ensures o.Converted? ==> |o.table| == OutputRows
    ensures o.Converted? ==> forall k :: 0 <= k < OutputRows ==> o.table[k] == BucketRecord(t.rows, o.year, k)
    ensures o.Converted? && HoursAreOneTo(t.rows, t.rowsCount) ==>
              forall k :: 0 <= k < OutputRows ==>
                o.table[k].min.Some? && o.table[k].max.Some? && o.table[k].min.value <= o.table[k].max.value
  {
    var verdict := TestData(t, year);
    if verdict.YearUnresolved? {
      return Crashed(verdict.log);
    }
    if !verdict.success {
      return Rejected(verdict.log);
    }
    var table := IterateMonths(t.rows, verdict.year);
    if HoursAreOneTo(t.rows, t.rowsCount) {
      TableFilled(t.rows, verdict.year, table);
    }
    return Converted(verdict.year, table);
  }
}

=== FILE: percentile.dfy ===
/** `calculate_percentile`: the 10th and 90th percentiles of one bucket with
    pandas' midpoint interpolation, and the means of the two tails they cut off.
    Loads are exact reals, so NaN becomes `None`. */
module Percentile {
  import opened Wrappers
  import opened Sorting

  /** The two quantile levels the converter asks for (exact, not IEEE). */
  const P10: real := 0.1
  const P90: real := 0.9

  /** Zero-based position of the q-quantile among `n` ascending values: `q`
      added once per step between neighbouring positions, so `q·(n-1)`
      (`RankIsProduct`). For a level in [0, 1] it lies within the positions. */
  function Rank(n: nat, q: real): (r: real)
    ensures n > 0 && 0.0 <= q <= 1.0 ==> 0.0 <= r <= (n - 1) as real
  {
    if n <= 1 then 0.0 else Rank(n - 1, q) + q
  }

  /** The rank is pandas' `q·(n-1)`. */
  lemma {:induction false} RankIsProduct(n: nat, q: real)
    requires n > 0
    ensures Rank(n, q) == q * (n - 1) as real
  {
    if n > 1 {
      RankIsProduct(n - 1, q);
      assert q * (n - 1) as real == q * (n - 2) as real + q;
    }
  }

  /** A higher level never has a lower rank. */
  lemma {:induction false} RankMonotone(n: nat, q1: real, q2: real)
    requires n > 0 && q1 <= q2
    ensures Rank(n, q1) <= Rank(n, q2)
  {
    if n > 1 {
      RankMonotone(n - 1, q1, q2);
    }
  }

  /** The whole number at or below `r`, searched downwards from `k`. */
  function FloorFrom(r: real, k: nat): (i: int)
    requires 0.0 <= r < k as real + 1.0
    ensures 0 <= i <= k
    ensures i as real <= r < i as real + 1.0
  {
    if k as real <= r then k else FloorFrom(r, k - 1)
  }

  /** floor(Rank): the order statistic at or below the rank. */
  function LowerIndex(n: nat, q: real): (i: int)
    requires n > 0 && 0.0 <= q <= 1.0
    ensures 0 <= i < n
    ensures i as real <= Rank(n, q) < i as real + 1.0
  {
    FloorFrom(Rank(n, q), n - 1)
  }

  /** ceil(Rank): the order statistic at or above the rank. */
  function UpperIndex(n: nat, q: real): (j: int)
    requires n > 0 && 0.0 <= q <= 1.0
    ensures LowerIndex(n, q) <= j < n
    ensures Rank(n, q) <= j as real < Rank(n, q) + 1.0
    ensures j == LowerIndex(n, q) <==> Rank(n, q) == j as real
  {
    var i := LowerIndex(n, q);
    if Rank(n, q) == i as real then i else i + 1
  }

  /** Midpoint interpolation on values `x`: the mean of the elements at the
      floor and the ceiling of the rank. On ascending values it lies between
      the first and the last of them. */
  function Midpoint(x: seq<real>, q: real): (r: real)
    requires |x| > 0 && 0.0 <= q <= 1.0
    ensures Sorted(x) ==> x[0] <= r <= x[|x| - 1]
  {
    var lo, hi := LowerIndex(|x|, q), UpperIndex(|x|, q);
    assert Sorted(x) ==> x[0] <= x[lo] <= x[hi] <= x[|x| - 1];
    (x[lo] + x[hi]) / 2.0
  }

  /** `Series.quantile(q, interpolation='midpoint')`: missing for no values,
      otherwise a value lying between the smallest and the largest value. */
  function Quantile(values: seq<real>, q: real): (r: Option<real>)
    requires 0.0 <= q <= 1.0
    ensures r.None? <==> |values| == 0
    ensures r.Some? ==> exists i :: 0 <= i < |values| && values[i] <= r.value
    ensures r.Some? ==> exists j :: 0 <= j < |values| && r.value <= values[j]
  {
    if |values| == 0 then None
    else
      SortIsSorted(values);
      var x := Sort(values);
      assert x[0] in multiset(values) && x[|x| - 1] in multiset(values);
      Some(Midpoint(x, q))
  }

  /** A non-empty bucket's quantile is the midpoint of its sorted values. */
  lemma QuantileIsMidpoint(values: seq<real>, q: real)
    requires 0.0 <= q <= 1.0 && |values| > 0
    ensures Quantile(values, q) == Some(Midpoint(Sort(values), q))
  {
  }

  lemma IndicesAtWholeRank(n: nat, q: real, i: int)
    requires n > 0 && 0.0 <= q <= 1.0
    requires Rank(n, q) == i as real
    ensures LowerIndex(n, q) == i && UpperIndex(n, q) == i
  {
  }

  lemma IndicesBetweenRanks(n: nat, q: real, i: int)
    requires n > 0 && 0.0 <= q <= 1.0
    requires i as real < Rank(n, q) < i as real + 1.0
    ensures LowerIndex(n, q) == i && UpperIndex(n, q) == i + 1
  {
  }

  lemma MidpointAtWholeRank(x: seq<real>, q: real, i: int)
    requires |x| > 0 && 0.0 <= q <= 1.0
    requires Rank(|x|, q) == i as real
    ensures 0 <= i < |x|
    ensures Midpoint(x, q) == x[i]
  {
    IndicesAtWholeRank(|x|, q, i);
    assert Midpoint(x, q) == (x[i] + x[i]) / 2.0;
  }

  lemma MidpointBetweenRanks(x: seq<real>, q: real, i: int)
    requires |x| > 0 && 0.0 <= q <= 1.0
    requires i as real < Rank(|x|, q) < i as real + 1.0
    ensures 0 <= i && i + 1 < |x|
    ensures Midpoint(x, q) == (x[i] + x[i + 1]) / 2.0
  {
    IndicesBetweenRanks(|x|, q, i);
  }

  /** When the rank is a whole number `i`, the quantile is the i-th order statistic. */
  lemma QuantileAtRank(values: seq<real>, q: real, i: int)
    requires 0.0 <= q <= 1.0 && |values| > 0
    requires Rank(|values|, q) == i as real
    ensures 0 <= i < |values|
    ensures Quantile(values, q) == Some(Sort(values)[i])
  {
    var x := Sort(values);
    assert |x| == |values|;
    MidpointAtWholeRank(x, q, i);
    QuantileIsMidpoint(values, q);
  }

  /** Otherwise it is the midpoint of the two neighbouring order statistics. */
  lemma QuantileBetweenRanks(values: seq<real>, q: real, i: int)
    requires 0.0 <= q <= 1.0 && |values| > 0
    requires i as real < Rank(|values|, q) < i as real + 1.0
    ensures 0 <= i && i + 1 < |values|
    ensures Quantile(values, q) == Some((Sort(values)[i] + Sort(values)[i + 1]) / 2.0)
  {
    var x := Sort(values);
    assert |x| == |values|;
    MidpointBetweenRanks(x, q, i);
    QuantileIsMidpoint(values, q);
  }

  /** The same two facts with the rank written as pandas computes it, `q·(n-1)`. */
  lemma QuantileAtOrderStatistic(values: seq<real>, q: real, i: int)
    requires 0.0 <= q <= 1.0 && |values| > 0
    requires q * (|values| - 1) as real == i as real
    ensures 0 <= i < |values|
    ensures Quantile(values, q) == Some(Sort(values)[i])
  {
    RankIsProduct(|values|, q);
    QuantileAtRank(values, q, i);
  }

  lemma QuantileBetweenOrderStatistics(values: seq<real>, q: real, i: int)
    requires 0.0 <= q <= 1.0 && |values| > 0
    requires i as real < q * (|values| - 1) as real < i as real + 1.0
    ensures 0 <= i && i + 1 < |values|
    ensures Quantile(values, q) == Some((Sort(values)[i] + Sort(values)[i + 1]) / 2.0)
  {
    RankIsProduct(|values|, q);
    QuantileBetweenRanks(values, q, i);
  }

  lemma IndicesMonotone(n: nat, q1: real, q2: real)
    requires n > 0 && 0.0 <= q1 <= q2 <= 1.0
    ensures LowerIndex(n, q1) <= LowerIndex(n, q2)
    ensures UpperIndex(n, q1) <= UpperIndex(n, q2)
  {
    RankMonotone(n, q1, q2);
  }

  lemma MidpointMonotone(x: seq<real>, q1: real, q2: real)
    requires |x| > 0 && 0.0 <= q1 <= q2 <= 1.0 && Sorted(x)
    ensures Midpoint(x, q1) <= Midpoint(x, q2)
  {
    var n := |x|;
    IndicesMonotone(n, q1, q2);
    assert x[LowerIndex(n, q1)] <= x[LowerIndex(n, q2)];
    assert x[UpperIndex(n, q1)] <= x[UpperIndex(n, q2)];
  }

  /** Higher levels never give lower quantiles; in particular p10 <= p90. */
  lemma QuantileMonotone(values: seq<real>, q1: real, q2: real)
    requires 0.0 <= q1 <= q2 <= 1.0 && |values| > 0
    ensures Quantile(values, q1).value <= Quantile(values, q2).value
  {
    QuantileIsMidpoint(values, q1);
    QuantileIsMidpoint(values, q2);
    SortIsSorted(values);
    MidpointMonotone(Sort(values), q1, q2);
  }

  /** The quantile depends only on the multiset of values. */
  lemma QuantileIgnoresOrder(a: seq<real>, b: seq<real>, q: real)
    requires 0.0 <= q <= 1.0
    requires multiset(a) == multiset(b)
    ensures Quantile(a, q) == Quantile(b, q)
  {
    SortIgnoresOrder(a, b);
    assert |a| == |Sort(a)| == |Sort(b)| == |b|;
  }

  /** `df[df['MW'] <= p]`: the values at or below `p`, in input order. A missing
      (NaN) threshold compares false, so nothing is kept. */
  function AtMost(values: seq<real>, p: Option<real>): (low: seq<real>)
    ensures forall v :: multiset(low)[v] == if p.Some? && v <= p.value then multiset(values)[v] else 0
    ensures forall v :: v in low <==> v in values && p.Some? && v <= p.value
  {
    if |values| == 0 then []
    else
      assert values == [values[0]] + values[1..];
      (if p.Some? && values[0] <= p.value then [values[0]] else []) + AtMost(values[1..], p)
  }

  /** `df[df['MW'] >= p]`: the values at or above `p`, in input order. */
  function AtLeast(values: seq<real>, p: Option<real>): (high: seq<real>)
    ensures forall v :: multiset(high)[v] == if p.Some? && p.value <= v then multiset(values)[v] else 0
    ensures forall v :: v in high <==> v in values && p.Some? && p.value <= v
  {
    if |values| == 0 then []
    else
      assert values == [values[0]] + values[1..];
      (if p.Some? && p.value <= values[0] then [values[0]] else []) + AtLeast(values[1..], p)
  }

  function Sum(values: seq<real>): real {
    if |values| == 0 then 0.0 else values[0] + Sum(values[1..])
  }

  /** `Series.mean()`: missing (NaN) for no values; otherwise the value that,
      taken once per value, adds up to the sum. */
  function Mean(values: seq<real>): (r: Option<real>)
    ensures r.None? <==> |values| == 0
    ensures r.Some? ==> r.value * |values| as real == Sum(values)
  {
    if |values| == 0 then None else Some(Sum(values) / |values| as real)
  }

  lemma {:induction false} SumAtMost(values: seq<real>, b: real)
    requires forall v :: v in values ==> v <= b
    ensures Sum(values) <= |values| as real * b
  {
    if |values| > 0 {
      assert values[0] in values;
      assert forall v :: v in values[1..] ==> v in values;
      SumAtMost(values[1..], b);
      assert |values| as real * b == b + (|values| - 1) as real * b;
    }
  }

  lemma {:induction false} SumAtLeast(values: seq<real>, b: real)
    requires forall v :: v in values ==> b <= v
    ensures |values| as real * b <= Sum(values)
  {
    if |values| > 0 {
      assert values[0] in values;
      assert forall v :: v in values[1..] ==> v in values;
      SumAtLeast(values[1..], b);
      assert |values| as real * b == b + (|values| - 1) as real * b;
    }
  }

  /** A mean is no larger than any upper bound of its values ... */
  lemma MeanAtMost(values: seq<real>, b: real)
    requires |values| > 0
    requires forall v :: v in values ==> v <= b
    ensures Mean(values).value <= b
  {
    SumAtMost(values, b);
    var n := |values| as real;
    assert Sum(values) / n <= (n * b) / n;
  }

  /** ... and no smaller than any lower bound. */
  lemma MeanAtLeast(values: seq<real>, b: real)
    requires |values| > 0
    requires forall v :: v in values ==> b <= v
    ensures b <= Mean(values).value
  {
    SumAtLeast(values, b);
    var n := |values| as real;
    assert (n * b) / n <= Sum(values) / n;
  }

  /** One output cell pair: `min` is the mean of the low tail, `max` the mean of
      the high tail. */
  datatype TailStats = TailStats(min: Option<real>, max: Option<real>)

  /** A threshold at or above some value leaves a non-empty low tail whose mean
      does not exceed the threshold. */
  lemma LowTailBelow(values: seq<real>, p: real, i: int)
    requires 0 <= i < |values| && values[i] <= p
    ensures |AtMost(values, Some(p))| > 0
    ensures Mean(AtMost(values, Some(p))).value <= p
  {
    var low := AtMost(values, Some(p));
    assert values[i] in low;
    MeanAtMost(low, p);
  }

  /** A threshold at or below some value leaves a non-empty high tail whose
      mean is not below the threshold. */
  lemma HighTailAbove(values: seq<real>, p: real, j: int)
    requires 0 <= j < |values| && p <= values[j]
    ensures |AtLeast(values, Some(p))| > 0
    ensures p <= Mean(AtLeast(values, Some(p))).value
  {
    var high := AtLeast(values, Some(p));
    assert values[j] in high;
    MeanAtLeast(high, p);
  }

  /** For any non-empty bucket both tails are non-empty and
      mean(low) <= p10 <= p90 <= mean(high), ties included. */
  lemma TailsBracketQuantiles(values: seq<real>)
    requires |values| > 0
    ensures |AtMost(values, Quantile(values, P10))| > 0
    ensures |AtLeast(values, Quantile(values, P90))| > 0
    ensures Mean(AtMost(values, Quantile(values, P10))).value <= Quantile(values, P10).value
    ensures Quantile(values, P10).value <= Quantile(values, P90).value
    ensures Quantile(values, P90).value <= Mean(AtLeast(values, Quantile(values, P90))).value
  {
    var p10, p90 := Quantile(values, P10), Quantile(values, P90);
    var i :| 0 <= i < |values| && values[i] <= p10.value;
    LowTailBelow(values, p10.value, i);
    var j :| 0 <= j < |values| && p90.value <= values[j];
    HighTailAbove(values, p90.value, j);
    QuantileMonotone(values, P10, P90);
  }

  /** `calculate_percentile` on the values of one bucket. */
  function CalculatePercentile(values: seq<real>): (t: TailStats)
    ensures t.min.None? <==> |values| == 0
    ensures t.max.None? <==> |values| == 0
    ensures |values| > 0 ==> t.min.value <= Quantile(values, P10).value
    ensures |values| > 0 ==> Quantile(values, P90).value <= t.max.value
    ensures |values| > 0 ==> t.min.value <= t.max.value
  {
    var p10, p90 := Quantile(values, P10), Quantile(values, P90);
    var low, high := AtMost(values, p10), AtLeast(values, p90);
    if |values| == 0 then TailStats(None, None)
    else
      TailsBracketQuantiles(values);
      TailStats(Mean(low), Mean(high))
  }

  /** On values already in ascending order the quantile reads them directly. */
  lemma QuantileOfSorted(x: seq<real>, q: real)
    requires 0.0 <= q <= 1.0 && |x| > 0 && Sorted(x)
    ensures Quantile(x, q) == Some(Midpoint(x, q))
  {
    SortOfSorted(x);
  }

  /** The ten loads 1, 2, ..., 10. */
  predicate OneToTen(s: seq<real>) {
    |s| == 10 && forall i :: 0 <= i < |s| ==> s[i] == (i + 1) as real
  }

  lemma OneToTenSorted(s: seq<real>)
    requires OneToTen(s)
    ensures Sorted(s)
  {
    SortedByNeighbours(s);
  }

  /** Ten values 1..10: neither rank (0.9 and 8.1) is whole, so p10 = 1.5 and
      p90 = 9.5, not the order statistics 1 and 10 themselves. */
  lemma TenValuesExample(s: seq<real>)
    requires OneToTen(s)
    ensures Quantile(s, P10) == Some(1.5)
    ensures Quantile(s, P90) == Some(9.5)
  {
    OneToTenSorted(s);
    RankIsProduct(|s|, P10);
    RankIsProduct(|s|, P90);
    QuantileOfSorted(s, P10);
    QuantileOfSorted(s, P90);
    MidpointBetweenRanks(s, P10, 0);
    MidpointBetweenRanks(s, P90, 8);
    assert s[0] == 1.0 && s[1] == 2.0 && s[8] == 9.0 && s[9] == 10.0;
  }

  /** The 31 loads of a January bucket: six of 100, then 200, 300, ..., 800,
      then eighteen of 900. */
  predicate JanuaryLoads(s: seq<real>) {
    |s| == 31 &&
    forall i :: 0 <= i < |s| ==>
      s[i] == if i < 6 then 100.0 else if i < 13 then 100.0 * (i - 4) as real else 900.0
  }

  lemma JanuarySorted(s: seq<real>)
    requires JanuaryLoads(s)
    ensures Sorted(s)
  {
    SortedByNeighbours(s);
  }

  lemma JanuaryQuantiles(s: seq<real>)
    requires JanuaryLoads(s)
    ensures Quantile(s, P10) == Some(100.0) && Quantile(s, P90) == Some(900.0)
  {
    JanuarySorted(s);
    RankIsProduct(|s|, P10);
    RankIsProduct(|s|, P90);
    QuantileOfSorted(s, P10);
    QuantileOfSorted(s, P90);
    MidpointAtWholeRank(s, P10, 3);
    MidpointAtWholeRank(s, P90, 27);
    assert s[3] == 100.0 && s[27] == 900.0;
  }

  lemma JanuaryTails(s: seq<real>)
    requires JanuaryLoads(s)
    ensures Mean(AtMost(s, Some(100.0))) == Some(100.0)
    ensures Mean(AtLeast(s, Some(900.0))) == Some(900.0)
  {
    assert s[0] in AtMost(s, Some(100.0)) && s[30] in AtLeast(s, Some(900.0));
    ConstantMean(AtMost(s, Some(100.0)), 100.0);
    ConstantMean(AtLeast(s, Some(900.0)), 900.0);
  }

  /** For the January loads both ranks (3 and 27) are whole, so the low tail is
      the six loads of 100 and the high tail the eighteen of 900. */
  lemma JanuaryBucketExample(s: seq<real>)
    requires JanuaryLoads(s)
    ensures Quantile(s, P10) == Some(100.0) && Quantile(s, P90) == Some(900.0)
    ensures CalculatePercentile(s) == TailStats(Some(100.0), Some(900.0))
  {
    JanuaryQuantiles(s);
    JanuaryTails(s);
  }

  /** Values all equal to `b` average to `b`. */
  lemma ConstantMean(values: seq<real>, b: real)
    requires |values| > 0
    requires forall v :: v in values ==> v == b
    ensures Mean(values) == Some(b)
  {
    MeanAtMost(values, b);
    MeanAtLeast(values, b);
  }
}

=== FILE: sorting.dfy ===
/** Ascending order on load values, as used by the quantile computation. */
module Sorting {

  predicate Sorted(s: seq<real>) {
    forall i, j :: 0 <= i < j < |s| ==> s[i] <= s[j]
  }

  /** Inserts `x` after the last element not larger than it, searching from
      the back. */
  function Insert(x: real, s: seq<real>): (r: seq<real>)
    ensures multiset(r) == multiset(s) + multiset{x}
    ensures |r| == |s| + 1
    ensures r[|r| - 1] == if |s| == 0 || s[|s| - 1] <= x then x else s[|s| - 1]
  {
    if |s| == 0 then [x]
    else if s[|s| - 1] <= x then s + [x]
    else
      var init, last := s[..|s| - 1], s[|s| - 1];
      assert s == init + [last];
      Insert(x, init) + [last]
  }

  /** Inserting into an ascending sequence keeps it ascending. */
  lemma {:induction false} InsertSorted(x: real, s: seq<real>)
    requires Sorted(s)
    ensures Sorted(Insert(x, s))
  {
    if |s| > 0 && x < s[|s| - 1] {
      var init, last := s[..|s| - 1], s[|s| - 1];
      var rest := Insert(x, init);
      InsertSorted(x, init);
      assert forall k :: 0 <= k < |rest| ==> rest[k] <= rest[|rest| - 1] <= last;
    }
  }

  /** Insertion sort: a permutation of `s`, ascending by `SortIsSorted`. */
  function Sort(s: seq<real>): (r: seq<real>)
    ensures multiset(r) == multiset(s)
    ensures |r| == |s|
  {
    if |s| == 0 then []
    else
      var init, last := s[..|s| - 1], s[|s| - 1];
      assert s == init + [last];
      Insert(last, Sort(init))
  }

  /** The result of `Sort` is ascending. This quantified fact is kept out of
      the contracts of `Insert` and `Sort`, so that it is only present where a
      proof asks for it. */
  lemma {:induction false} SortIsSorted(s: seq<real>)
    ensures Sorted(Sort(s))
  {
    if |s| > 0 {
      var init := s[..|s| - 1];
      SortIsSorted(init);
      InsertSorted(s[|s| - 1], Sort(init));
    }
  }

  /** An ascending arrangement of a multiset is unique. */
  lemma {:induction false} SortedUnique(a: seq<real>, b: seq<real>)
    requires Sorted(a) && Sorted(b)
    requires multiset(a) == multiset(b)
    ensures a == b
    decreases |a|
  {
    if |a| > 0 {
      assert |b| == |multiset(b)| == |multiset(a)| == |a|;
      assert a[0] in multiset(b);
      assert b[0] in multiset(a);
      assert a[0] == b[0] by {
        var i :| 0 <= i < |b| && b[i] == a[0];
        var j :| 0 <= j < |a| && a[j] == b[0];
        assert b[0] <= a[0] && a[0] <= b[0];
      }
      assert a == [a[0]] + a[1..];
      assert b == [b[0]] + b[1..];
      assert multiset(a) == multiset{a[0]} + multiset(a[1..]);
      assert multiset(b) == multiset{b[0]} + multiset(b[1..]);
      assert multiset(a[1..]) == multiset(a) - multiset{a[0]};
      assert multiset(b[1..]) == multiset(b) - multiset{b[0]};
      SortedUnique(a[1..], b[1..]);
    }
  }

  /** Sorting depends only on the multiset of values, not on their order. */
  lemma SortIgnoresOrder(a: seq<real>, b: seq<real>)
    requires multiset(a) == multiset(b)
    ensures Sort(a) == Sort(b)
  {
    SortIsSorted(a);
    SortIsSorted(b);
    SortedUnique(Sort(a), Sort(b));
  }

  /** An ascending sequence is its own sort. */
  lemma SortOfSorted(s: seq<real>)
    requires Sorted(s)
    ensures Sort(s) == s
  {
    SortIsSorted(s);
    SortedUnique(Sort(s), s);
  }

  /** Ascending order follows from ascending neighbours. */
  lemma {:induction false} SortedByNeighbours(s: seq<real>)
    requires forall i :: 0 <= i < |s| - 1 ==> s[i] <= s[i + 1]
    ensures Sorted(s)
  {
    if |s| > 1 {
      var t := s[1..];
      SortedByNeighbours(t);
      forall i, j | 0 <= i < j < |s|
        ensures s[i] <= s[j]
      {
        if i == 0 {
          assert s[0] <= t[0] <= t[j - 1];
        } else {
          assert t[i - 1] <= t[j - 1];
        }
      }
    }
  }
}

=== FILE: validation.dfy ===
/** `test_data`: resolves the year and checks the row count and the two
    required columns, collecting every failed check before deciding. */
module Validation {
  import opened Wrappers
  import opened Calendar
  import opened Bucketing

  /** The input table as the converter sees it: its column names, the number
      of non-null entries in its first column (`df[df.columns[0]].count()`),
      and the `(Hour, MW)` rows. */
  datatype Table = Table(columns: seq<string>, rowsCount: nat, rows: seq<Row>)

  /** One entry of the error log, in the order the checks run. */
  datatype Diagnostic =
    | AmbiguousRowCount(passed: int)                // no year given, count neither 8760 nor 8784
    | RowCountMismatch(passed: int, expected: int)  // count differs from the annual hours
    | MissingMW(columns: seq<string>)
    | MissingHour(columns: seq<string>)

  /** What `test_data` does: returns `(success, year)` with its log, or raises
      because the year stayed `None` and `is_leap_year(None)` fails. */
  datatype Verdict =
    | Checked(success: bool, year: int, log: seq<Diagnostic>)
    | YearUnresolved(log: seq<Diagnostic>)

  /** Row counts of a full common and leap year, and the example years the
      converter substitutes for them. */
  const CommonYearHours := 8760
  const LeapYearHours := 8784
  const CommonReferenceYear := 2005
  const LeapReferenceYear := 2004

  /** The year the checks use: the given one, else one inferred from the row
      count, else none. An inferred year always has exactly `rowsCount` hours. */
  function ResolveYear(year: Option<int>, rowsCount: int): (r: Option<int>)
    ensures year.Some? ==> r == year
    ensures year.None? ==> (r.Some? <==> rowsCount == CommonYearHours || rowsCount == LeapYearHours)
    ensures year.None? && r.Some? ==> AnnualHours(r.value) == rowsCount
    ensures year.None? && r.Some? ==> (IsLeapYear(r.value) <==> rowsCount == LeapYearHours)
  {
    AnnualHoursByLeap(LeapReferenceYear);
    AnnualHoursByLeap(CommonReferenceYear);
    if year.Some? then year
    else if rowsCount == LeapYearHours then Some(LeapReferenceYear)
    else if rowsCount == CommonYearHours then Some(CommonReferenceYear)
    else None
  }

  /** `annual_hours`: the number of hours from January 1 of `year` to January 1
      of the next year. */
  function ExpectedRows(year: int): (n: int)
    ensures n == AnnualHours(year)
    ensures n == LeapYearHours <==> IsLeapYear(year)
    ensures n == LeapYearHours || n == CommonYearHours
  {
    AnnualHoursByLeap(year);
    if IsLeapYear(year) then LeapYearHours else CommonYearHours
  }

  /** Position of a check in the order `test_data` runs them. */
  function CheckOrder(d: Diagnostic): int {
    match d
    case AmbiguousRowCount(_) => 0
    case RowCountMismatch(_, _) => 1
    case MissingMW(_) => 2
    case MissingHour(_) => 3
  }

  /** `test_data(df, year)`. The three checks are independent: the log holds
      one entry per failed check, in check order, and succeeds iff it is empty.
      A missing year with an unusual row count ends in the crash. */
  function TestData(t: Table, year: Option<int>): (v: Verdict)
    ensures v.YearUnresolved? <==>
            year.None? && t.rowsCount != CommonYearHours && t.rowsCount != LeapYearHours
    ensures v.YearUnresolved? ==> v.log == [AmbiguousRowCount(t.rowsCount)]
    ensures v.Checked? ==> ResolveYear(year, t.rowsCount) == Some(v.year)
    ensures v.Checked? ==> (v.success <==> v.log == [])
    ensures v.Checked? ==>
              (v.success <==> t.rowsCount == AnnualHours(v.year) && "MW" in t.columns && "Hour" in t.columns)
    ensures v.Checked? ==>
              (RowCountMismatch(t.rowsCount, AnnualHours(v.year)) in v.log <==> t.rowsCount != AnnualHours(v.year))
    ensures v.Checked? ==> (MissingMW(t.columns) in v.log <==> "MW" !in t.columns)
    ensures v.Checked? ==> (MissingHour(t.columns) in v.log <==> "Hour" !in t.columns)
    ensures v.Checked? ==> forall d :: d in v.log ==>
              d == RowCountMismatch(t.rowsCount, AnnualHours(v.year)) || d == MissingMW(t.columns) || d == MissingHour(t.columns)
    ensures v.Checked? ==> forall i, j :: 0 <= i < j < |v.log| ==> CheckOrder(v.log[i]) < CheckOrder(v.log[j])
  {
    match ResolveYear(year, t.rowsCount)
    case None => YearUnresolved([AmbiguousRowCount(t.rowsCount)])
    case Some(y) =>
      var expected := ExpectedRows(y);
      var log :=
        (if t.rowsCount != expected then [RowCountMismatch(t.rowsCount, expected)] else [])
        + (if "MW" !in t.columns then [MissingMW(t.columns)] else [])
        + (if "Hour" !in t.columns then [MissingHour(t.columns)] else []);
      Checked(log == [], y, log)
  }

  /** Without a year, a full leap or common year of rows resolves to the
      reference year and passes the row-count check. */
  lemma InferredYearPassesRowCount(t: Table)
    requires t.rowsCount == CommonYearHours || t.rowsCount == LeapYearHours
    ensures TestData(t, None).Checked?
    ensures TestData(t, None).year == (if t.rowsCount == LeapYearHours then LeapReferenceYear else CommonReferenceYear)
    ensures forall d :: d in TestData(t, None).log ==> !d.RowCountMismatch?
    ensures TestData(t, None).success <==> "MW" in t.columns && "Hour" in t.columns
  {
  }

  /** 8761 rows and no year: the row-count diagnostic is logged, then the
      converter crashes instead of returning a verdict. */
  lemma OddRowCountCrashes(t: Table)
    requires t.rowsCount == 8761
    ensures TestData(t, None) == YearUnresolved([AmbiguousRowCount(8761)])
  {
  }
}

=== FILE: wrappers.dfy ===
/** A value that may be missing. The converter uses it wherever pandas would
    produce NaN or Python would hold `None`. */
module Wrappers {

  datatype Option<+T> = None | Some(value: T)
}
